=== FILE: README.md ===
# Oscillofun core in Dafny

Oscillofun is an oscilloscope-style music visualiser. It captures the
system's audio output through BASS/WASAPI. Each frame, it draws the
interleaved stereo samples as a Lissajous figure: the left channel deflects
the beam horizontally and the right channel vertically. Each trace vertex is
dimmed by how fast the beam moved to reach it.

This project models that core, with floats idealised as `real`:

- `Lissajous` (Program.cs) covers:
  - buffer sizing in `OnLoad`;
  - the per-frame vertex and colour loop of `OnUpdateFrame`;
  - `DistFast`.
- `Audio` (Audio.cs) covers:
  - the default-device search;
  - the shared sample array;
  - the one-time BASS initialisation guard;
  - the callback chain.
- `Shaders` (Shaders.cs) covers:
  - lazy program creation in `CompileShader`;
  - the uniform table built by `CacheUniformLocations`;
  - the `Uniform.Default` sentinel;
  - `GetUniform` and the ten `Set*` members.
- `Engine` (Engine.cs) covers:
  - the window-flag choice and the borderless handling;
  - the GL version parse and `GLVersion.SimpleString`.
- `Graphics` (Graphics.cs) covers the `LineMesh` lifecycle:
  - the constructor;
  - allocate-once `UpdateBuffer`;
  - `Draw`.
- `Utilities` (Utilities.cs) covers `Lerp` and `Map`.
- `Wrappers` holds `Option` and `Result`, with an `Error` for each exception the modelled code can raise:
  - an index out of range;
  - a negative array size;
  - a duplicate dictionary key;
  - a null reference.

Foreign calls are modelled as follows:

- OpenGL and BASS calls are not executed. Their effects are recorded instead:
  - the GL calls an operation issues are returned as a sequence of `GlCall` values;
  - the values these libraries return are parameters: object names, compile status, active uniforms, the device listing (device information is looked up in it), `BASS_Init`'s result and the captured floats.
- The square root is a parameter `sqrt`, constrained by `Lissajous.IsSquareRoot`.
- The vertex's `FadeColor` is a parameter `fade`.

The mesh's `Vertices` array is used by Program.cs, but the `LineMesh` in Graphics.cs does not declare it. It is modelled as a separate `seq<Vertex>` that `OnLoad` sizes to one entry per mesh point.

A few facts about the code that shape the model:

- The history factor `(i/2)/N` makes later buffer entries brighter.
- The falloff reaches 0 for a fast beam; no minimum is applied.
- A `LineMesh` keeps the `StaticDraw` usage hint of `Drawable`.
- The audio callback writes the shared sample array directly.
- Engine.cs reads a `Fullscreen` setting that the Settings class in this repository does not declare. It is modelled as a plain boolean.

## Model

| member | source | states |
|---|---|---|
| Lissajous.BufferSize | Oscillofun/Program.cs:55 | the vertex count is `mixfreq · 0.05` truncated: the largest whole number not above it |
| Lissajous.Load | Oscillofun/Program.cs:52-59 | after loading, the samples are `2·bufferSize` zeros, the mesh and the vertex array hold `bufferSize` entries, so vertices = samples / 2; the mesh is a line strip with the first VAO GL hands out |
| Lissajous.LoadedFrameFitsTrace | Oscillofun/Program.cs:55-58 | a loaded frame always satisfies what the frame loop needs: one vertex per sample pair, and a non-zero mix frequency whenever there are two or more pairs |
| Lissajous.BuildTrace | Oscillofun/Program.cs:79-134 | exactly the vertices 0 up to (sample count / 2) - 1 get one position write each, in order (odd `i` writes vertex `i/2`); vertex j's position is that of pair (2j, 2j+1); vertex 0 keeps its colour; every later vertex j gets the green trace colour faded by the falloff of the raw pairs j-1 and j; the vertices beyond the samples are unchanged |
| Lissajous.WriteVertex | Oscillofun/Program.cs:93-123 | one odd index: the pixel of its pair, and from the second pair on the trace colour faded by a falloff computed from the flipped pairs that equals the falloff of the raw pairs |
| Lissajous.StepFalloff | Oscillofun/Program.cs:110-118 | the falloff computed from the pairs with the right channel negated equals the falloff of the raw pairs |
| Lissajous.UpdateFrame | Oscillofun/Program.cs:71-136 | the frame fails with an index error exactly when there are fewer vertices than sample pairs; otherwise only the vertices and the mesh's GPU names change: samples, size, mix frequency, mesh points, draw mode and usage hint stay as they were, an allocated mesh keeps its VAO, and the next frame again has one vertex per sample pair and a non-zero mix frequency when it needs one; every pair's vertex is at that pair's pixel, vertex 0 keeps its colour, every later vertex gets the trace colour faded by the falloff of its pair and the previous one, and the vertices beyond the samples are unchanged |
| Lissajous.DistFast | Oscillofun/Program.cs:164-167 | the distance is non-negative and its square is the sum of the squared coordinate differences |
| Lissajous.DistFastSymmetric | Oscillofun/Program.cs:164-167 | distance is symmetric in its two points |
| Lissajous.DistFastSamePoint | Oscillofun/Program.cs:164-167 | a point is at distance zero from itself |
| Lissajous.DistFastMirror | Oscillofun/Program.cs:93-110 | negating the second coordinate of both points (the flipped right channel) leaves the distance unchanged |
| Lissajous.Position | Oscillofun/Program.cs:85-105 | a zero sample pair lands at the window centre (W/2, H/2) |
| Lissajous.PositionRoundTrip | Oscillofun/Program.cs:85-105 | in a non-empty window the sample pair can be recovered from its pixel, so different pairs land on different pixels |
| Lissajous.PositionInWindow | Oscillofun/Program.cs:85-105 | samples within full scale [-1, 1] land inside the window, because the scale is min(W, H) |
| Lissajous.SpeedFade | Oscillofun/Program.cs:115 | the speed factor `max(0.8 - dist·k/mixfreq, 0)` lies in [0, 0.8] for a non-negative distance, and equals 0.8 exactly when the beam did not move |
| Lissajous.Falloff | Oscillofun/Program.cs:115-118 | after the history factor the falloff lies in [0, 0.8); for a still beam it is `0.8 · j / N` |
| Lissajous.StillBeamBrightensWithIndex | Oscillofun/Program.cs:115-118 | for a still beam the falloff is non-decreasing in the vertex index: later entries are brighter |
| Audio.RetrieveDefaultDevice | Oscillofun/Audio.cs:120-136 | the result is in `1..max(1, len)`; it is 1 when no entry is a default output (including an empty list); otherwise it is one more than the index of the first default output: the entry at result-1 is a default output and no earlier one is |
| Audio.FirstMatchWins | Oscillofun/Audio.cs:124-133 | a default output listed after an earlier one is never the device chosen |
| Audio.SetSampleSize | Oscillofun/Audio.cs:26-29 | a fresh array of exactly `size` zeros; a negative size fails |
| Audio.GetDeviceInfo | Oscillofun/Audio.cs:87 | the information for a device number counted from 0 is the listing's entry at that index, and null exactly for a number outside the listing |
| Audio.SetDevice | Oscillofun/Audio.cs:70-98 | the init block runs, and `BassInit` takes `BASS_Init`'s result, only while `BassInit` is false; the device number and the information looked up for it (possibly null) are always recorded, and then the call throws a null reference exactly when that information is null (Audio.cs:98 reads its fields) |
| Audio.InitGuard | Oscillofun/Audio.cs:73-83 | over two calls, a successful first init is never repeated, while a failed one is retried |
| Audio.SetDelegate | Oscillofun/Audio.cs:65-68 | installs the delegate and leaves the device state alone |
| Audio.DeviceCallback | Oscillofun/Audio.cs:107-113 | returns `length` when no delegate is set, and the delegate's result otherwise |
| Audio.GetDataRequestAsWritten | Oscillofun/Audio.cs:33 | the byte count line 33 requests (sample count · channels · 2) equals the array's byte size for a stereo device, is smaller for a mono device, and is larger for more than two channels |
| Audio.GetDataRequest | Oscillofun/Audio.cs:33 | the corrected request is the byte size of the float array: it asks for exactly as many floats as the array holds |
| Audio.RequestAsWrittenMatchesOnlyStereo | Oscillofun/Audio.cs:33 | the request as written equals the array's byte size exactly when the device has two channels |
| Audio.RequestAsWrittenOverruns | Oscillofun/Audio.cs:33 | with eight channels and a 4800-float array, the request as written lets BASS deliver 19200 floats |
| Audio.RequestFitsArray | Oscillofun/Audio.cs:33 | with the corrected request BASS never delivers more floats than the array holds, and fills it when enough data is captured |
| Audio.CaptureCallback | Oscillofun/Audio.cs:31-36 | the array keeps its length; the captured floats overwrite its prefix, the rest keeps its old samples, and the callback returns `length` |
| Audio.Init | Oscillofun/Audio.cs:15-24 | the device number is at least 1 and at most the listing's length (1 for an empty listing); it is one more than the index of the first default output, or 1 when there is none; the recorded information is the listing's entry at that number (counted from 0, so the entry after the default output), and null when the number is past the end; `BassInit` is set when it was already set or `BASS_Init` succeeds; Init throws a null reference exactly when the number is past the end (the default output listed last, a listing without a default output of one entry or none), and then no delegate is installed; otherwise the sample array is 2048 zeros and the installed callback chain returns `length` for every call |
| Shaders.Compile | Oscillofun/Shaders.cs:57-94 | a program is created, as the first call, only when there is none yet; an existing program is kept; a failed compile returns -1 and attaches nothing; a successful one returns the shader and attaches it as its last call |
| Shaders.OneProgramPerShader | Oscillofun/Shaders.cs:40-68 | compiling both stages creates exactly one program, in the first compile |
| Shaders.NamesBeforeMembers | Oscillofun/Shaders.cs:103-124 | a name is among the first `i` active uniforms exactly when one of them carries it |
| Shaders.RepeatedNameNotFresh | Oscillofun/Shaders.cs:124 | a name already cached, or already seen in the loop, makes the uniform list unacceptable to `Dictionary.Add` |
| Shaders.CollectUniforms | Oscillofun/Shaders.cs:103-126 | the loop succeeds exactly when no name repeats and none is already cached; it then stores uniform i under its name with location i and no value; on failure the rejected key is one of the names |
| Shaders.CacheUniformLocations | Oscillofun/Shaders.cs:96-127 | caching succeeds exactly when the names are fresh; it keeps the program, the name and every earlier entry, and adds exactly the active names, each at its own index |
| Shaders.GetUniform | Oscillofun/Shaders.cs:134-145 | a missing name yields the "INVALID UNIFORM" record at location -1 and binds nothing, even with `autoBind`; a present name yields its record and binds the program only when `autoBind` is set |
| Shaders.SetUniform | Oscillofun/Shaders.cs:150-248 | a setter returns false exactly when the name is missing or its location is -1, and then issues no uniform call; on success its last call passes the value to the uniform's location |
| Shaders.SetFailsExactlyWhenMissing | Oscillofun/Shaders.cs:134-158 | on a well-formed table every setter fails exactly for unknown names |
| Shaders.CachePreservesWellFormed | Oscillofun/Shaders.cs:115-124 | after caching, every entry is stored under its own name at a location of 0 or more, and every setter on a cached name succeeds |
| Shaders.NewShader | Oscillofun/Shaders.cs:35-54 | construction creates one program, as the first call, and links it; it succeeds exactly when the active uniform names are distinct, and the result is well formed and holds every active name |
| Engine.WindowFlags | Oscillofun/Engine.cs:38-48 | native fullscreen flags exactly when fullscreen is requested without `NoBorder` |
| Engine.Configure | Oscillofun/Engine.cs:38-68 | the border is hidden exactly with `NoBorder`; the window state becomes fullscreen exactly with `NoBorder` and `Fullscreen` |
| Engine.FullscreenExactlyOneWay | Oscillofun/Engine.cs:39-68 | a fullscreen request is honoured in exactly one way (native, or borderless fullscreen state), and a borderless window never uses the native mode |
| Engine.DefaultEngine | Oscillofun/Engine.cs:26-36 | the parameterless engine uses default flags; its settings copy the window's actual width and height, take the sample count from its graphics context and `Fullscreen` from its window state, keeps its border and does not switch to fullscreen |
| Engine.NumericValue | Oscillofun/Engine.cs:95-96 | an ASCII digit maps to its value 0..9 (whose digit character is the input); any other character maps to -1 |
| Engine.ParseVersion | Oscillofun/Engine.cs:94-96 | a version string shorter than three characters fails with an index error; otherwise major and minor are the numeric values of characters 0 and 2: a digit's own value (the digit it renders as is that character), -1 for a non-digit |
| Engine.NatToString | Oscillofun/Engine.cs:20 | the decimal rendering is non-empty and all digits |
| Engine.NatToStringRoundTrip | Oscillofun/Engine.cs:20 | reading the decimal rendering back gives the number |
| Engine.SimpleString | Oscillofun/Engine.cs:18-21 | a single-digit version renders as three characters with '.' in the middle |
| Engine.SimpleStringReproducesPrefix | Oscillofun/Engine.cs:18-21 | for a version string starting "d.d", `SimpleString` of the parsed version is that three-character prefix |
| Engine.ParseSimpleStringRoundTrip | Oscillofun/Engine.cs:94-96 | parsing the simple string of a single-digit version gives the version back |
| Utilities.Lerp | Oscillofun/Utilities.cs:19-22 | `Lerp(s,e,0) = s`, `Lerp(s,e,1) = e`, `Lerp(s,s,p) = s`, and for a percentage in [0, 1] and start not above end the result lies between them |
| Utilities.LerpBetween | Oscillofun/Utilities.cs:19-22 | for a percentage in [0, 1] the result lies between start and end, whichever of the two is larger |
| Utilities.Map | Oscillofun/Utilities.cs:24-27 | for a non-empty input range, `in_min` maps to `out_min` and `in_max` to `out_max` |
| Utilities.MapUnitIsLerp | Oscillofun/Utilities.cs:19-27 | mapping from [0, 1] is linear interpolation |
| Utilities.MapRoundTrip | Oscillofun/Utilities.cs:24-27 | with both ranges non-empty, mapping back with the ranges swapped returns the original value |
| Graphics.NewLineMesh | Oscillofun/Graphics.cs:56-60 | a `LineMesh(n)` is a line strip (overriding the Triangles default), keeps the StaticDraw hint, has no VAO and has n zero points; a negative n fails |
| Graphics.UpdateBuffer | Oscillofun/Graphics.cs:62-85 | a vertex array and buffer are generated exactly when the mesh has none, and an existing one is kept; some call generates a buffer exactly when the mesh had no vertex array; every upload is (point count · 8) bytes with the mesh's own hint; the last call unbinds the vertex array; points, mode and hint are unchanged |
| Graphics.AllocateOnce | Oscillofun/Graphics.cs:64-72 | over any number of uploads at most one vertex array is generated (none if one exists), and the mesh keeps the first name, provided GL never returns a negative name |
| Graphics.Draw | Oscillofun/Graphics.cs:87-101 | it draws from vertex 0 over exactly the point count, starts by enabling blending, ends by unbinding the vertex array and then disabling blending, and generates no vertex array and no buffer |
| Graphics.LineMeshDrawsAllPoints | Oscillofun/Graphics.cs:56-101 | a `LineMesh(n)` uploaded once draws n vertices as a line strip from its own vertex array, with the hint still StaticDraw |

## Left out

- BASS/WASAPI library calls are not modelled: registration, `BASS_Init`, `BASS_WASAPI_Init`/`SetDevice`/`Start`/`Stop`/`SetNotify`, and the notify logging. They are foreign code; their results are inputs.
- Concurrency is not modelled: the audio callback writes the shared sample array while the render loop reads it.
- IEEE float rounding, NaN and infinities are not modelled. `Math.Sqrt`/`Math.Pow` become the `sqrt` parameter.
- Lissajous.BuildTrace and Lissajous.UpdateFrame require a non-zero mix frequency once there are two sample pairs. The source would divide by zero in float (giving infinity or NaN), and a loaded frame never has pairs without a frequency (`LoadedFrameFitsTrace`).
- Audio.CaptureCallback models the corrected request of the Findings row (the array's byte size), not Audio.cs:33 as written. As written, a mono device fills only half the array and a device with more than two channels overruns it; `GetDataRequestAsWritten` and the lemmas after it state that.
- Lissajous.Load takes the mix frequency of a successful `Audio.Init` as a number. When `Audio.Init` fails with a null reference, OnLoad ends at that exception; this is not modelled as a separate path of Load.
- Lissajous.UpdateFrame returns a failure without the vertices the loop wrote before the index error. The exception aborts the frame.
- `SetColor`, `FadeColor` and the vertex record are not defined in the repository's files. The trace colour is modelled as written, and the fade is the `fade` parameter.
- Engine.NumericValue models Char.GetNumericValue for ASCII digits only. Other Unicode numerals are outside the model.
- GL state (clear colour, blend function, projection matrix, viewport), shader source upload and info-log printing, and `Shader.Bind` are GL calls with no logic.
- The GLSL source strings, Settings.cs (JSON and file I/O), Log.cs (file I/O and locking) and Material.cs (a thin wrapper) are outside the core.
- The window icon, console hiding, VSync and the title/FPS text are not modelled.

## Findings

| source | as written | input that shows it | evidently intended | confidence | as-written member | corrected member |
|---|---|---|---|---|---|---|
| Oscillofun/Audio.cs:33 | `Audio.WasapiCallback` asks `BASS_WASAPI_GetData` for `SampleData.Length · mixchans · 2` bytes. That is the array's size in bytes only when the device has two channels. | A 7.1 device (mixchans = 8) with a 4800-float array: the request is 76800 bytes, so BASS may write 19200 floats into a 4800-float array. | Request the array's byte size, `SampleData.Length · 4`. | medium, not executed | Audio.RequestAsWrittenOverruns | Audio.RequestFitsArray |

=== FILE: audio.dfy ===
/** The audio side of Audio.cs: choosing the capture device, sizing the
    shared sample array, the one-time library initialisation and the
    capture callback chain. The BASS/WASAPI library is not modelled; what
    it returns (the device list, the result of BASS_Init, the captured
    floats) is passed in. */
module Audio {
  import opened Wrappers

  /** The fields of BASS_WASAPI_DEVICEINFO the code reads. */
  datatype DeviceInfo = DeviceInfo(isInput: bool, isDefault: bool, mixfreq: nat, mixchans: nat)

  /** The device number used when no default output device is listed. */
  const FallbackDevice: int := 1

  /** The sample count Audio.Init allocates before OnLoad resizes it. */
  const InitialSampleSize: int := 2048

  /** Bytes in one captured sample (a 32-bit float). */
  const FloatSizeInBytes: nat := 4

  /** The device the search is looking for: a default output. */
  predicate IsDefaultOutput(d: DeviceInfo) {
    !d.isInput && d.isDefault
  }

  /** `RetrieveDefaultDevice`: one more than the index of the first default
      output in the listing, or 1 when there is none. BASSWASAPI numbers its
      devices from 0 in listing order, so the number names the entry after
      the default output, and it is past the end of the listing when that
      output is listed last or the listing is empty. */
  method RetrieveDefaultDevice(devices: seq<DeviceInfo>) returns (devnum: int)
    ensures 1 <= devnum <= if |devices| == 0 then 1 else |devices|
    ensures (forall k :: 0 <= k < |devices| ==> !IsDefaultOutput(devices[k])) ==> devnum == FallbackDevice
    ensures (exists k :: 0 <= k < |devices| && IsDefaultOutput(devices[k])) ==>
      IsDefaultOutput(devices[devnum - 1]) &&
      forall k :: 0 <= k < devnum - 1 ==> !IsDefaultOutput(devices[k])
  {
    devnum := FallbackDevice;
    var i := 0;
    while i < |devices|
      invariant 0 <= i <= |devices|
      invariant devnum == FallbackDevice
      invariant forall k :: 0 <= k < i ==> !IsDefaultOutput(devices[k])
    {
      if IsDefaultOutput(devices[i]) {
        devnum := i + 1;
        return;
      }
      i := i + 1;
    }
  }

  /** First match wins: a default output listed after an earlier one is
      never the device chosen. */
  lemma FirstMatchWins(devices: seq<DeviceInfo>, first: nat, later: nat, devnum: int)
    requires first < later < |devices|
    requires IsDefaultOutput(devices[first]) && IsDefaultOutput(devices[later])
    requires 1 <= devnum <= |devices|
    requires IsDefaultOutput(devices[devnum - 1])
    requires forall k :: 0 <= k < devnum - 1 ==> !IsDefaultOutput(devices[k])
    ensures devnum - 1 <= first
    ensures devnum - 1 != later
  {
  }

  /** `SetSampleSize`: a fresh zeroed array of exactly `size` samples; a
      negative size throws. */
  function SetSampleSize(size: int): (r: Result<seq<real>>)
    ensures r.Failure? <==> size < 0
    ensures r.Failure? ==> r.error == NegativeArraySize
    ensures r.Success? ==> |r.value| == size && forall k :: 0 <= k < size ==> r.value[k] == 0.0
  {
    if size < 0 then Failure(NegativeArraySize) else Success(seq(size, _ => 0.0))
  }

  /** The state WasapiDevice keeps in static fields. `initRuns` counts how
      often the one-time BASS initialisation block has run. */
  datatype Wasapi = Wasapi(
    bassInit: bool,
    initRuns: nat,
    currentDevice: int,
    currentInfo: Option<DeviceInfo>,
    think: Option<int -> int>)

  /** The static fields before any call. */
  const Unconfigured: Wasapi := Wasapi(false, 0, 0, None, None)

  /** BASS_WASAPI_GetDeviceInfo: the listing's entry for a device number
      counted from 0, or nothing (null) for a number outside the listing. */
  function GetDeviceInfo(devices: seq<DeviceInfo>, device: int): (r: Option<DeviceInfo>)
    ensures r.Some? <==> 0 <= device < |devices|
    ensures r.Some? ==> r.value == devices[device]
  {
    if 0 <= device < |devices| then Some(devices[device]) else None
  }

  /** `SetDevice`: run the BASS initialisation block only while `bassInit`
      is false, storing BASS_Init's result (`bassInitOk`); then record the
      device and the information the library reports for it (`info`, which
      is null for an unknown device). Starting the stream then reads the
      information's mix frequency and channel count, which throws for null
      information after the fields are stored. The second component is the
      exception thrown, if any. */
  function SetDevice(w: Wasapi, device: int, bassInitOk: bool, info: Option<DeviceInfo>)
    : (r: (Wasapi, Option<Error>))
    ensures r.0.initRuns == if w.bassInit then w.initRuns else w.initRuns + 1
    ensures r.0.bassInit == if w.bassInit then true else bassInitOk
    ensures r.0.currentDevice == device && r.0.currentInfo == info
    ensures r.0.think == w.think
    ensures r.1.Some? <==> info.None?
    ensures r.1.Some? ==> r.1.value == NullReference
  {
    var w' := if w.bassInit then w else w.(bassInit := bassInitOk, initRuns := w.initRuns + 1);
    (w'.(currentDevice := device, currentInfo := info), if info.None? then Some(NullReference) else None)
  }

  /** Once BASS_Init has succeeded, later `SetDevice` calls never run the
      initialisation block again; while it keeps failing, every call retries. */
  lemma InitGuard(w: Wasapi, d1: int, ok1: bool, i1: Option<DeviceInfo>, d2: int, ok2: bool, i2: Option<DeviceInfo>)
    requires !w.bassInit
    ensures var r := SetDevice(SetDevice(w, d1, ok1, i1).0, d2, ok2, i2).0;
      && (ok1 ==> r.initRuns == w.initRuns + 1 && r.bassInit)
      && (!ok1 ==> r.initRuns == w.initRuns + 2 && r.bassInit == ok2)
  {
  }

  /** `SetDelegate`. */
  function SetDelegate(w: Wasapi, think: int -> int): (r: Wasapi)
    ensures r.think == Some(think)
    ensures r.bassInit == w.bassInit && r.initRuns == w.initRuns
    ensures r.currentDevice == w.currentDevice && r.currentInfo == w.currentInfo
  {
    w.(think := Some(think))
  }

  /** WasapiDevice's callback: forward to the delegate if one is set,
      otherwise report the whole buffer as consumed. */
  function DeviceCallback(w: Wasapi, length: int): (r: int)
    ensures w.think.None? ==> r == length
    ensures w.think.Some? ==> r == w.think.value(length)
  {
    match w.think
    case None => length
    case Some(think) => think(length)
  }

  /** The bytes Audio.WasapiCallback asks BASS_WASAPI_GetData for, as
      written: the sample count times the channel count times two. */
  function GetDataRequestAsWritten(sampleCount: nat, mixchans: nat): (bytes: nat)
    ensures mixchans == 2 ==> bytes == GetDataRequest(sampleCount)
    ensures 0 < sampleCount && mixchans < 2 ==> bytes < GetDataRequest(sampleCount)
    ensures 0 < sampleCount && mixchans > 2 ==> bytes > GetDataRequest(sampleCount)
  {
    sampleCount * mixchans * 2
  }

  /** The bytes the shared float array holds, which the request evidently
      means to fill. */
  function GetDataRequest(sampleCount: nat): (bytes: nat)
    ensures bytes / FloatSizeInBytes == sampleCount
  {
    sampleCount * FloatSizeInBytes
  }

  /** The floats BASS writes for a request of `bytes` when it holds
      `available` captured floats. */
  function Delivered(bytes: nat, available: nat): nat
  {
    var wanted := bytes / FloatSizeInBytes;
    if wanted < available then wanted else available
  }

  /** As written, the request matches the array only for stereo devices. */
  lemma RequestAsWrittenMatchesOnlyStereo(sampleCount: nat, mixchans: nat)
    requires 0 < sampleCount
    ensures GetDataRequestAsWritten(sampleCount, mixchans) == GetDataRequest(sampleCount) <==> mixchans == 2
  {
  }

  /** A 7.1 device at 48 kHz: 4800 samples, eight channels. The request as
      written lets BASS write 19200 floats into a 4800-float array. */
  lemma RequestAsWrittenOverruns()
    ensures Delivered(GetDataRequestAsWritten(4800, 8), 19200) == 19200
    ensures Delivered(GetDataRequestAsWritten(4800, 8), 19200) > 4800
  {
  }

  /** With the corrected request BASS never writes past the array, and it
      fills all of it when enough data is captured. */
  lemma RequestFitsArray(sampleCount: nat, available: nat)
    ensures Delivered(GetDataRequest(sampleCount), available) <= sampleCount
    ensures sampleCount <= available ==> Delivered(GetDataRequest(sampleCount), available) == sampleCount
  {
  }

  /** Audio.WasapiCallback with the corrected request: the first captured
      floats overwrite the shared array in place (it is never resized), the
      rest of the array keeps its old samples, and the callback reports
      `length` consumed. */
  function CaptureCallback(samples: seq<real>, captured: seq<real>, length: int): (r: (seq<real>, int))
    ensures r.1 == length
    ensures |r.0| == |samples|
    ensures forall k :: 0 <= k < |samples| ==>
      r.0[k] == if k < |captured| then captured[k] else samples[k]
  {
    var n := Delivered(GetDataRequest(|samples|), |captured|);
    RequestFitsArray(|samples|, |captured|);
    (captured[..n] + samples[n..], length)
  }

  /** The delegate Audio.Init installs: it reports `length` consumed (its
      write into the sample array is CaptureCallback). */
  function AudioThink(length: int): int
  {
    length
  }

  /** `Audio.Init`: pick the default device, initialise BASS on it, install
      the audio delegate, start the stream and allocate the initial sample
      array. `devices` is the library's device listing and `bassInitOk`
      BASS_Init's result. When the chosen number is past the end of the
      listing, `SetDevice` throws and nothing after it runs; `r` is then the
      exception, otherwise the new sample array. */
  method Init(w: Wasapi, devices: seq<DeviceInfo>, bassInitOk: bool)
    returns (w': Wasapi, r: Result<seq<real>>)
    ensures 1 <= w'.currentDevice <= if |devices| == 0 then 1 else |devices|
    ensures (forall k :: 0 <= k < |devices| ==> !IsDefaultOutput(devices[k])) ==> w'.currentDevice == FallbackDevice
    ensures (exists k :: 0 <= k < |devices| && IsDefaultOutput(devices[k])) ==>
      IsDefaultOutput(devices[w'.currentDevice - 1]) &&
      forall k :: 0 <= k < w'.currentDevice - 1 ==> !IsDefaultOutput(devices[k])
    ensures w'.currentDevice < |devices| ==> w'.currentInfo == Some(devices[w'.currentDevice])
    ensures |devices| <= w'.currentDevice ==> w'.currentInfo.None?
    ensures w'.bassInit == (w.bassInit || bassInitOk)
    ensures r.Failure? <==> |devices| <= w'.currentDevice
    ensures r.Failure? ==> r.error == NullReference && w'.think == w.think
    ensures r.Success? ==>
      && |r.value| == InitialSampleSize
      && (forall k :: 0 <= k < |r.value| ==> r.value[k] == 0.0)
      && forall length :: DeviceCallback(w', length) == length
  {
    var device := RetrieveDefaultDevice(devices);
    var (configured, thrown) := SetDevice(w, device, bassInitOk, GetDeviceInfo(devices, device));
    w' := configured;
    if thrown.Some? {
      return w', Failure(thrown.value);
    }
    w' := SetDelegate(w', AudioThink);
    r := SetSampleSize(InitialSampleSize);
  }
}

=== FILE: engine.dfy ===
/** The window-mode rule of Engine.cs and the OpenGL version bookkeeping
    (the parse in OnLoad and GLVersion.SimpleString). */
module Engine {
  import opened Wrappers

  /** The Settings fields the engine reads. */
  datatype Settings = Settings(fullscreen: bool, noBorder: bool, width: int, height: int, samples: int)

  /** OpenTK's GameWindowFlags. */
  datatype GameWindowFlags = DefaultFlags | FullscreenFlags

  /** OpenTK's WindowState, as far as the engine sets it. */
  datatype WindowState = Normal | Minimized | Maximized | FullscreenState

  /** What constructing an Engine decides about its window: the flags passed
      to the GameWindow constructor, whether `initializeEngine` hides the
      border, and whether it switches the window state to fullscreen. */
  datatype WindowSetup = WindowSetup(flags: GameWindowFlags, hideBorder: bool, fullscreenState: bool)

  /** The flags chosen by `Engine(settings)` and `Engine(settings, title)`:
      native fullscreen only for a bordered fullscreen request. */
  function WindowFlags(s: Settings): (f: GameWindowFlags)
    ensures f == FullscreenFlags <==> s.fullscreen && !s.noBorder
  {
    if !s.fullscreen || s.noBorder then DefaultFlags else FullscreenFlags
  }

  /** The constructor flags followed by the `NoBorder` handling of
      `initializeEngine`. */
  function Configure(s: Settings): (w: WindowSetup)
    ensures w.hideBorder <==> s.noBorder
    ensures w.fullscreenState <==> s.noBorder && s.fullscreen
  {
    WindowSetup(WindowFlags(s), s.noBorder, s.noBorder && s.fullscreen)
  }

  /** A fullscreen request is honoured in exactly one way: natively when
      the border is kept, as a borderless fullscreen window otherwise; and a
      window without border never uses the native mode. */
  lemma FullscreenExactlyOneWay(s: Settings)
    ensures var w := Configure(s);
      && (s.fullscreen <==> w.flags == FullscreenFlags || w.fullscreenState)
      && !(w.flags == FullscreenFlags && w.fullscreenState)
      && (w.hideBorder ==> w.flags == DefaultFlags)
  {
  }

  /** The parameterless `Engine()`: a window requested at 800x800 with
      default flags, whose settings copy the window's actual size, its
      graphics context's sample count and (as `Fullscreen`) whether its
      state is fullscreen, and keep the default `NoBorder = false`. */
  function DefaultEngine(width: int, height: int, state: WindowState, contextSamples: int)
    : (r: (Settings, WindowSetup))
    ensures r.0.width == width && r.0.height == height && r.0.samples == contextSamples
    ensures r.0.fullscreen <==> state == FullscreenState
    ensures r.1.flags == DefaultFlags && !r.1.hideBorder && !r.1.fullscreenState
  {
    var s := Settings(state == FullscreenState, false, width, height, contextSamples);
    (s, WindowSetup(DefaultFlags, s.noBorder, s.noBorder && s.fullscreen))
  }

  /** GLVersion's two static fields. */
  datatype GLVersion = GLVersion(major: int, minor: int)

  predicate IsDigit(c: char) {
    '0' <= c <= '9'
  }

  /** Char.GetNumericValue restricted to ASCII: a digit's value, -1 for any
      other character. */
  function NumericValue(c: char): (v: int)
    ensures IsDigit(c) ==> 0 <= v <= 9 && DigitChar(v) == c
    ensures !IsDigit(c) ==> v == -1
  {
    if IsDigit(c) then (c - '0') as int else -1
  }

  /** The character of a decimal digit. */
  function DigitChar(d: int): (c: char)
    requires 0 <= d <= 9
    ensures IsDigit(c)
  {
    ('0' as int + d) as char
  }

  /** The version parse of `Engine.OnLoad`: the numeric values of characters
      0 and 2 of GL_VERSION; a string shorter than three characters makes
      the index throw. */
  function ParseVersion(version: string): (r: Result<GLVersion>)
    ensures r.Failure? <==> |version| < 3
    ensures r.Failure? ==> r.error == IndexOutOfRange
    ensures r.Success? ==>
      && (IsDigit(version[0]) ==> 0 <= r.value.major <= 9 && DigitChar(r.value.major) == version[0])
      && (!IsDigit(version[0]) ==> r.value.major == -1)
      && (IsDigit(version[2]) ==> 0 <= r.value.minor <= 9 && DigitChar(r.value.minor) == version[2])
      && (!IsDigit(version[2]) ==> r.value.minor == -1)
  {
    if |version| < 3 then Failure(IndexOutOfRange)
    else Success(GLVersion(NumericValue(version[0]), NumericValue(version[2])))
  }

  /** Decimal rendering of a natural number, as string.Format prints it. */
  function NatToString(n: nat): (s: string)
    ensures |s| > 0
    ensures forall k :: 0 <= k < |s| ==> IsDigit(s[k])
  {
    if n < 10 then [DigitChar(n)] else NatToString(n / 10) + [DigitChar(n % 10)]
  }

  /** Decimal rendering of an integer: a minus sign before negative ones. */
  function IntToString(n: int): string
  {
    if n < 0 then "-" + NatToString(-n) else NatToString(n)
  }

  /** The value of a string of decimal digits. */
  function DecimalValue(s: string): nat
    requires forall k :: 0 <= k < |s| ==> IsDigit(s[k])
  {
    if |s| == 0 then 0 else 10 * DecimalValue(s[..|s| - 1]) + NumericValue(s[|s| - 1])
  }

  /** Rendering a natural number and reading it back gives the number. */
  lemma {:induction false} NatToStringRoundTrip(n: nat)
    ensures DecimalValue(NatToString(n)) == n
  {
    var s := NatToString(n);
    if n >= 10 {
      NatToStringRoundTrip(n / 10);
      assert s[..|s| - 1] == NatToString(n / 10);
    } else {
      assert s[..0] == [];
    }
  }

  /** `GLVersion.SimpleString`: "Major.Minor". */
  function SimpleString(v: GLVersion): (s: string)
    ensures 0 <= v.major <= 9 && 0 <= v.minor <= 9 ==> |s| == 3 && s[1] == '.'
  {
    IntToString(v.major) + "." + IntToString(v.minor)
  }

  /** For a version string starting "d.d", SimpleString reproduces that
      three-character prefix. */
  lemma SimpleStringReproducesPrefix(version: string)
    requires |version| >= 3 && IsDigit(version[0]) && version[1] == '.' && IsDigit(version[2])
    ensures ParseVersion(version).Success?
    ensures SimpleString(ParseVersion(version).value) == version[..3]
  {
  }

  /** Parsing the simple string of a single-digit version gives it back. */
  lemma ParseSimpleStringRoundTrip(v: GLVersion)
    requires 0 <= v.major <= 9 && 0 <= v.minor <= 9
    ensures ParseVersion(SimpleString(v)) == Success(v)
  {
  }
}

=== FILE: graphics.dfy ===
/** The drawable line mesh of Graphics.cs: a point list whose GPU vertex
    array is allocated on the first upload and drawn as one line strip.
    OpenGL is not modelled; every GL call the code makes is recorded as a
    `GlCall` value, and the object names GL generates are parameters. */
module Graphics {
  import opened Wrappers

  /** OpenTK's Vector2. */
  datatype Vec2 = Vec2(x: real, y: real)

  /** Vector2.SizeInBytes: two 32-bit floats. */
  const Vector2SizeInBytes: nat := 8

  /** The vertex attribute slot used for positions (ATRIB_POS). */
  const PositionAttribute: nat := 0

  datatype BeginMode = Triangles | LineStrip

  datatype BufferUsageHint = StaticDraw | DynamicDraw | StreamDraw

  /** The OpenGL calls the mesh issues, in the order issued. */
  datatype GlCall =
    | GenVertexArray(vao: int)
    | BindVertexArray(vao: int)
    | GenBuffer(buffer: int)
    | BindArrayBuffer(buffer: int)
    | BufferData(bytes: int, hint: BufferUsageHint)
    | EnableVertexAttribArray(index: nat)
    | VertexAttribPointer(index: nat, components: nat, stride: nat, offset: nat)
    | EnableBlend
    | DisableBlend
    | Color4(r: real, g: real, b: real, a: real)
    | DrawArrays(mode: BeginMode, first: int, count: int)

  /** A Drawable line mesh. `vao` is -1 until the first upload; `buffer` is
      the single entry of `attribBuffers`. */
  datatype Mesh = Mesh(
    drawMode: BeginMode,
    usageHint: BufferUsageHint,
    vao: int,
    buffer: int,
    points: seq<Vec2>)

  /** The mesh has GPU objects. */
  predicate Allocated(m: Mesh) {
    m.vao >= 0
  }

  /** `new LineMesh(vertexCount)`: the Drawable field defaults (no vertex
      array, static usage) with the draw mode switched to a line strip and
      `vertexCount` zero points; a negative count throws. */
  function NewLineMesh(vertexCount: int): (r: Result<Mesh>)
    ensures r.Failure? <==> vertexCount < 0
    ensures r.Failure? ==> r.error == NegativeArraySize
    ensures r.Success? ==>
      && r.value.drawMode == LineStrip
      && r.value.usageHint == StaticDraw
      && !Allocated(r.value)
      && |r.value.points| == vertexCount
      && forall k :: 0 <= k < |r.value.points| ==> r.value.points[k] == Vec2(0.0, 0.0)
  {
    if vertexCount < 0 then Failure(NegativeArraySize)
    else Success(Mesh(LineStrip, StaticDraw, -1, 0, seq(vertexCount, _ => Vec2(0.0, 0.0))))
  }

  /** The number of vertex arrays a call sequence generates. */
  function Allocations(calls: seq<GlCall>): nat
  {
    if |calls| == 0 then 0
    else Allocations(calls[..|calls| - 1]) + (if calls[|calls| - 1].GenVertexArray? then 1 else 0)
  }

  lemma AllocationsAppend(a: seq<GlCall>, b: seq<GlCall>)
    ensures Allocations(a + b) == Allocations(a) + Allocations(b)
    decreases |b|
  {
    if |b| == 0 {
      assert a + b == a;
    } else {
      assert (a + b)[..|a + b| - 1] == a + b[..|b| - 1];
      AllocationsAppend(a, b[..|b| - 1]);
    }
  }

  lemma NoAllocations(calls: seq<GlCall>)
    requires forall k :: 0 <= k < |calls| ==> !calls[k].GenVertexArray?
    ensures Allocations(calls) == 0
  {
    if |calls| > 0 {
      NoAllocations(calls[..|calls| - 1]);
    }
  }

  lemma SetupAllocates(vao: int, buffer: int)
    ensures Allocations([GenVertexArray(vao), BindVertexArray(vao), GenBuffer(buffer)]) == 1
  {
    var setup := [GenVertexArray(vao), BindVertexArray(vao), GenBuffer(buffer)];
    assert [GenVertexArray(vao)][..0] == [];
    NoAllocations(setup[1..]);
    assert setup == [setup[0]] + setup[1..];
    AllocationsAppend([setup[0]], setup[1..]);
  }

  /** `UpdateBuffer`: on the first call (no vertex array yet) generate the
      vertex array `genVao` and buffer `genBuffer`; on every call upload
      all points and describe the position attribute, then unbind. */
  function UpdateBuffer(m: Mesh, genVao: int, genBuffer: int): (r: (Mesh, seq<GlCall>))
    ensures r.0.points == m.points && r.0.drawMode == m.drawMode && r.0.usageHint == m.usageHint
    ensures !Allocated(m) ==> r.0.vao == genVao && r.0.buffer == genBuffer
    ensures Allocated(m) ==> r.0.vao == m.vao && r.0.buffer == m.buffer
    ensures Allocations(r.1) == if Allocated(m) then 0 else 1
    ensures BufferData(|m.points| * Vector2SizeInBytes, m.usageHint) in r.1
    ensures forall c :: c in r.1 && c.BufferData? ==> c == BufferData(|m.points| * Vector2SizeInBytes, m.usageHint)
    ensures (exists c :: c in r.1 && c.GenBuffer?) <==> !Allocated(m)
    ensures r.1[|r.1| - 1] == BindVertexArray(0)
  {
    var (vao, buffer, setup) :=
      if m.vao < 0 then (genVao, genBuffer, [GenVertexArray(genVao), BindVertexArray(genVao), GenBuffer(genBuffer)])
      else (m.vao, m.buffer, []);
    var upload := [
      BindArrayBuffer(buffer),
      BufferData(|m.points| * Vector2SizeInBytes, m.usageHint),
      EnableVertexAttribArray(PositionAttribute),
      VertexAttribPointer(0, 2, Vector2SizeInBytes, 0),
      BindVertexArray(0)];
    NoAllocations(upload);
    SetupAllocates(genVao, genBuffer);
    AllocationsAppend(setup, upload);
    (m.(vao := vao, buffer := buffer), setup + upload)
  }

  /** A run of `UpdateBuffer` calls, one per frame, where GL hands out the
      object names in `names`. */
  function UpdateMany(m: Mesh, names: seq<(int, int)>): (Mesh, seq<GlCall>)
    decreases |names|
  {
    if |names| == 0 then (m, [])
    else
      var step := UpdateBuffer(m, names[0].0, names[0].1);
      var rest := UpdateMany(step.0, names[1..]);
      (rest.0, step.1 + rest.1)
  }

  /** Allocate-once: however many uploads follow, at most one vertex array
      is generated, none if the mesh already has one, and the mesh keeps the
      first name GL returned, provided GL never returns a negative name. */
  lemma {:induction false} AllocateOnce(m: Mesh, names: seq<(int, int)>)
    requires forall k :: 0 <= k < |names| ==> names[k].0 >= 0
    ensures Allocations(UpdateMany(m, names).1) == if Allocated(m) || |names| == 0 then 0 else 1
    ensures |names| > 0 && !Allocated(m) ==> UpdateMany(m, names).0.vao == names[0].0
    ensures Allocated(m) ==> UpdateMany(m, names).0.vao == m.vao
    ensures UpdateMany(m, names).0.points == m.points
    decreases |names|
  {
    if |names| > 0 {
      var step := UpdateBuffer(m, names[0].0, names[0].1);
      AllocateOnce(step.0, names[1..]);
      AllocationsAppend(step.1, UpdateMany(step.0, names[1..]).1);
    }
  }

  /** `Draw`: enable blending, bind the vertex array, draw every point as
      one primitive of the mesh's mode starting at vertex 0, then unbind the
      vertex array and disable blending. */
  function Draw(m: Mesh): (calls: seq<GlCall>)
    ensures DrawArrays(m.drawMode, 0, |m.points|) in calls
    ensures forall c :: c in calls && c.DrawArrays? ==> c.first == 0 && c.count == |m.points|
    ensures calls[0] == EnableBlend
    ensures calls[|calls| - 2] == BindVertexArray(0) && calls[|calls| - 1] == DisableBlend
    ensures Allocations(calls) == 0
    ensures forall k :: 0 <= k < |calls| ==> !calls[k].GenBuffer?
  {
    var calls := [
      EnableBlend,
      Color4(0.25, 1.0, 0.25, 0.4),
      BindVertexArray(m.vao),
      DrawArrays(m.drawMode, 0, |m.points|),
      BindVertexArray(0),
      DisableBlend];
    NoAllocations(calls);
    calls
  }

  /** A `LineMesh(n)` uploaded once draws exactly n vertices as a line
      strip from its own vertex array, the usage hint still StaticDraw. */
  lemma LineMeshDrawsAllPoints(n: nat, genVao: int, genBuffer: int)
    requires genVao >= 0
    ensures NewLineMesh(n).Success?
    ensures var m := UpdateBuffer(NewLineMesh(n).value, genVao, genBuffer).0;
      && Allocated(m) && m.vao == genVao && m.usageHint == StaticDraw
      && BindVertexArray(genVao) in Draw(m)
      && DrawArrays(LineStrip, 0, n) in Draw(m)
  {
  }
}

=== FILE: lissajous.dfy ===
/** The oscilloscope core of Program.cs: sizing the sample and vertex
    buffers from the device's mix frequency, and the per-frame loop that
    turns the interleaved stereo samples into trace vertices (position from
    the sample pair, brightness from beam speed and position in the
    buffer). Floats are idealised as reals. The square root and the
    vertex's FadeColor are not part of this model and are parameters. */
module Lissajous {
  import opened Wrappers
  import Audio
  import Graphics

  /** Seconds of audio kept on screen (BufferHistoryLength). */
  const BufferHistoryLength: real := 0.05

  /** How strongly beam speed dims the trace (rayDistanceFadeMultiplier). */
  const RayDistanceFadeMultiplier: real := 900000.0

  /** The brightness of a beam that does not move. */
  const BaseFalloff: real := 0.8

  datatype Color = Color(r: real, g: real, b: real)

  /** The green the trace is drawn in, before fading. */
  const TraceColor: Color := Color(0.10, 1.0, 0.10)

  /** One trace vertex: pixel position and colour. */
  datatype Vertex = Vertex(position: Graphics.Vec2, color: Color)

  /** The default vertex struct. */
  const ZeroVertex: Vertex := Vertex(Graphics.Vec2(0.0, 0.0), Color(0.0, 0.0, 0.0))

  /** `sqrt` is the square root on the non-negative reals. */
  ghost predicate IsSquareRoot(sqrt: real -> real) {
    && sqrt(0.0) == 0.0
    && forall x :: 0.0 <= x ==> 0.0 <= sqrt(x) && sqrt(x) * sqrt(x) == x
  }

  /** The vertex count OnLoad allocates: the samples per channel in
      BufferHistoryLength seconds, truncated. */
  function BufferSize(mixfreq: nat): (n: nat)
    ensures n as real <= mixfreq as real * BufferHistoryLength < n as real + 1.0
  {
    (mixfreq as real * BufferHistoryLength).Floor
  }

  /** `DistFast`: Euclidean distance between two points. */
  function DistFast(sqrt: real -> real, x1: real, y1: real, x2: real, y2: real): (d: real)
    requires IsSquareRoot(sqrt)
    ensures 0.0 <= d
    ensures d * d == (x1 - x2) * (x1 - x2) + (y1 - y2) * (y1 - y2)
  {
    var sq := (x1 - x2) * (x1 - x2) + (y1 - y2) * (y1 - y2);
    assert 0.0 <= sq;
    sqrt(sq)
  }

  lemma DistFastSymmetric(sqrt: real -> real, x1: real, y1: real, x2: real, y2: real)
    requires IsSquareRoot(sqrt)
    ensures DistFast(sqrt, x1, y1, x2, y2) == DistFast(sqrt, x2, y2, x1, y1)
  {
    assert (x1 - x2) * (x1 - x2) == (x2 - x1) * (x2 - x1);
    assert (y1 - y2) * (y1 - y2) == (y2 - y1) * (y2 - y1);
  }

  lemma DistFastSamePoint(sqrt: real -> real, x: real, y: real)
    requires IsSquareRoot(sqrt)
    ensures DistFast(sqrt, x, y, x, y) == 0.0
  {
    assert (x - x) * (x - x) + (y - y) * (y - y) == 0.0;
  }

  /** Negating the second coordinate of both points (the trace's flipped
      right channel) does not change their distance. */
  lemma DistFastMirror(sqrt: real -> real, x1: real, y1: real, x2: real, y2: real)
    requires IsSquareRoot(sqrt)
    ensures DistFast(sqrt, x1, -y1, x2, -y2) == DistFast(sqrt, x1, y1, x2, y2)
  {
    assert (-y1 - -y2) * (-y1 - -y2) == (y1 - y2) * (y1 - y2);
  }

  /** `Math.Min(Width, Height)`: the side of the largest centred square. */
  function Scale(width: nat, height: nat): real
  {
    if width < height then width as real else height as real
  }

  /** The pixel the sample pair (left, right) deflects the beam to: left
      drives x, the negated right drives y, both scaled by half the square
      and centred in the window. */
  function Position(left: real, right: real, width: nat, height: nat): (p: Graphics.Vec2)
    ensures left == 0.0 && right == 0.0 ==> p == Graphics.Vec2(width as real / 2.0, height as real / 2.0)
  {
    var scale := Scale(width, height);
    Graphics.Vec2(left * scale * 0.5 + width as real * 0.5, -right * scale * 0.5 + height as real * 0.5)
  }

  /** The sample pair a pixel position came from (inverse of Position). */
  function SamplesAt(p: Graphics.Vec2, width: nat, height: nat): (real, real)
    requires 0 < width && 0 < height
  {
    var scale := Scale(width, height);
    ((p.x - width as real * 0.5) * 2.0 / scale, -(p.y - height as real * 0.5) * 2.0 / scale)
  }

  /** Different sample pairs land on different pixels: Position can be
      undone in any non-empty window. */
  lemma PositionRoundTrip(left: real, right: real, width: nat, height: nat)
    requires 0 < width && 0 < height
    ensures SamplesAt(Position(left, right, width, height), width, height) == (left, right)
  {
    var scale := Scale(width, height);
    var p := Position(left, right, width, height);
    assert (p.x - width as real * 0.5) * 2.0 == left * scale;
    CancelScale(left, scale);
    assert -(p.y - height as real * 0.5) * 2.0 == right * scale;
    CancelScale(right, scale);
  }

  /** Samples within full scale [-1, 1] stay inside the window. */
  lemma PositionInWindow(left: real, right: real, width: nat, height: nat)
    requires -1.0 <= left <= 1.0 && -1.0 <= right <= 1.0
    ensures var p := Position(left, right, width, height);
      0.0 <= p.x <= width as real && 0.0 <= p.y <= height as real
  {
    CoordinateInWindow(left, Scale(width, height), width as real);
    CoordinateInWindow(-right, Scale(width, height), height as real);
  }

  lemma CancelScale(a: real, scale: real)
    requires 0.0 < scale
    ensures a * scale / scale == a
  {
  }

  /** One axis of PositionInWindow. */
  lemma CoordinateInWindow(a: real, scale: real, side: real)
    requires -1.0 <= a <= 1.0 && 0.0 <= scale <= side
    ensures 0.0 <= a * scale * 0.5 + side * 0.5 <= side
  {
    WithinScale(a, scale);
  }

  lemma NonNegativeProduct(x: real, y: real)
    requires 0.0 <= x && 0.0 <= y
    ensures 0.0 <= x * y
  {
  }

  lemma WithinScale(a: real, scale: real)
    requires -1.0 <= a <= 1.0 && 0.0 <= scale
    ensures -scale <= a * scale <= scale
  {
    NonNegativeProduct(1.0 - a, scale);
    NonNegativeProduct(1.0 + a, scale);
  }

  /** The speed term: a beam that moved `dist` since the previous pair
      dims linearly, down to zero. */
  function SpeedFade(dist: real, mixfreq: nat): (f: real)
    requires 0 < mixfreq
    ensures 0.0 <= f
    ensures 0.0 <= dist ==> f <= BaseFalloff
    ensures f == BaseFalloff <==> dist == 0.0
  {
    var f := BaseFalloff - dist * RayDistanceFadeMultiplier / mixfreq as real;
    if f > 0.0 then f else 0.0
  }

  /** The full falloff of vertex `j` of `count`: the speed term times the
      vertex's position in the buffer. */
  function Falloff(dist: real, j: nat, count: nat, mixfreq: nat): (f: real)
    requires 0 < mixfreq
    requires j < count
    ensures 0.0 <= f
    ensures 0.0 <= dist ==> f < BaseFalloff
    ensures dist == 0.0 ==> f == BaseFalloff * (j as real / count as real)
  {
    var age := j as real / count as real;
    assert 0.0 <= age < 1.0;
    var speed := SpeedFade(dist, mixfreq);
    assert 0.0 <= dist ==> speed * age < BaseFalloff by {
      if 0.0 <= dist {
        assert speed * age <= BaseFalloff * age;
      }
    }
    speed * age
  }

  /** For a still beam, brightness grows with the index: later buffer
      entries are brighter. */
  lemma StillBeamBrightensWithIndex(j1: nat, j2: nat, count: nat, mixfreq: nat)
    requires 0 < mixfreq
    requires j1 <= j2 < count
    ensures Falloff(0.0, j1, count, mixfreq) <= Falloff(0.0, j2, count, mixfreq)
  {
    assert j1 as real / count as real <= j2 as real / count as real;
  }

  /** The colour the frame gives vertex j >= 1: the trace colour, faded by
      the falloff computed from the distance between sample pairs j - 1
      and j in raw sample space. */
  function ColorAt(samples: seq<real>, j: nat, count: nat, mixfreq: nat,
                   sqrt: real -> real, fade: (Color, real) -> Color): Color
    requires IsSquareRoot(sqrt)
    requires 0 < mixfreq
    requires 1 <= j < count && 2 * j + 1 < |samples|
  {
    var dist := DistFast(sqrt, samples[2 * j], samples[2 * j + 1], samples[2 * j - 2], samples[2 * j - 1]);
    fade(TraceColor, Falloff(dist, j, count, mixfreq))
  }

  /** The vertex loop of `OnUpdateFrame`. Every odd sample index i writes
      vertex i / 2: the position of pair (i - 1, i), and from the second
      vertex on the trace colour faded by FadeColor. Vertex 0's colour and
      all vertices past the samples are left alone. `written` lists the
      vertices whose position was written, in order. */
  method BuildTrace(samples: seq<real>, vertices: seq<Vertex>, width: nat, height: nat, mixfreq: nat,
                    sqrt: real -> real, fade: (Color, real) -> Color)
    returns (result: seq<Vertex>, ghost written: seq<nat>)
    requires IsSquareRoot(sqrt)
    requires 4 <= |samples| ==> 0 < mixfreq
    requires |samples| / 2 <= |vertices|
    ensures |result| == |vertices|
    ensures written == seq(|samples| / 2, j => j)
    ensures forall j :: 0 <= j < |samples| / 2 ==>
      result[j].position == Position(samples[2 * j], samples[2 * j + 1], width, height)
    ensures 0 < |vertices| ==> result[0].color == vertices[0].color
    ensures forall j :: 1 <= j < |samples| / 2 ==>
      result[j].color == ColorAt(samples, j, |vertices|, mixfreq, sqrt, fade)
    ensures forall j :: |samples| / 2 <= j < |vertices| ==> result[j] == vertices[j]
  {
    result := vertices;
    written := [];
    var lastLeftAmt, lastRightAmt := 0.0, 0.0;
    var i := 0;
    while i < |samples|
      invariant 0 <= i <= |samples|
      invariant |result| == |vertices|
      invariant written == seq(i / 2, k => k)
      invariant 2 <= i ==> lastLeftAmt == samples[2 * (i / 2) - 2] && lastRightAmt == -samples[2 * (i / 2) - 1]
      invariant forall j :: 0 <= j < i / 2 ==>
        result[j].position == Position(samples[2 * j], samples[2 * j + 1], width, height)
      invariant 0 < |vertices| ==> result[0].color == vertices[0].color
      invariant forall j :: 1 <= j < i / 2 ==>
        result[j].color == ColorAt(samples, j, |vertices|, mixfreq, sqrt, fade)
      invariant forall j :: i / 2 <= j < |vertices| ==> result[j] == vertices[j]
    {
      if i % 2 == 1 {
        var j := i / 2;
        var vertex := WriteVertex(samples, i, result[j], lastLeftAmt, lastRightAmt, |result|,
                                  width, height, mixfreq, sqrt, fade);
        result := result[j := vertex];
        assert seq(j, k => k) + [j] == seq(j + 1, k => k);
        written := written + [j];
        lastLeftAmt, lastRightAmt := samples[i - 1], -samples[i];
      }
      i := i + 1;
    }
  }

  /** The body of the loop for odd index i: vertex i / 2 gets the pixel of
      pair (i - 1, i); past the first pair it also gets the trace colour,
      faded by the falloff from the previous pair (kept, right channel
      negated, in `lastLeftAmt` and `lastRightAmt`). */
  method WriteVertex(samples: seq<real>, i: nat, vertex: Vertex, lastLeftAmt: real, lastRightAmt: real,
                     count: nat, width: nat, height: nat, mixfreq: nat,
                     sqrt: real -> real, fade: (Color, real) -> Color)
    returns (v: Vertex)
    requires IsSquareRoot(sqrt)
    requires i % 2 == 1 && i < |samples| && i / 2 < count
    requires 3 <= i ==> 0 < mixfreq && lastLeftAmt == samples[i - 3] && lastRightAmt == -samples[i - 2]
    ensures v.position == Position(samples[2 * (i / 2)], samples[2 * (i / 2) + 1], width, height)
    ensures i == 1 ==> v.color == vertex.color
    ensures 3 <= i ==> v.color == ColorAt(samples, i / 2, count, mixfreq, sqrt, fade)
  {
    var j := i / 2;
    var scale := Scale(width, height);
    var leftAmt := samples[i - 1];
    var rightAmt := -samples[i];
    assert leftAmt == samples[2 * j] && rightAmt == -samples[2 * j + 1];
    v := vertex.(position := Graphics.Vec2(
      leftAmt * scale * 0.5 + width as real * 0.5,
      rightAmt * scale * 0.5 + height as real * 0.5));
    if i >= 2 {
      var dist := DistFast(sqrt, leftAmt, rightAmt, lastLeftAmt, lastRightAmt);
      var falloff := BaseFalloff - dist * RayDistanceFadeMultiplier / mixfreq as real;
      falloff := if falloff > 0.0 then falloff else 0.0;
      falloff := falloff * (j as real / count as real);
      StepFalloff(sqrt, leftAmt, rightAmt, lastLeftAmt, lastRightAmt, j, count, mixfreq);
      assert lastLeftAmt == samples[2 * j - 2] && lastRightAmt == -samples[2 * j - 1];
      assert -rightAmt == samples[2 * j + 1] && -lastRightAmt == samples[2 * j - 1];
      ghost var rawDist := DistFast(sqrt, samples[2 * j], samples[2 * j + 1], samples[2 * j - 2], samples[2 * j - 1]);
      assert rawDist == DistFast(sqrt, leftAmt, -rightAmt, lastLeftAmt, -lastRightAmt);
      assert falloff == Falloff(rawDist, j, count, mixfreq);
      v := v.(color := TraceColor);
      v := v.(color := fade(v.color, falloff));
    }
  }

  /** One colour step of the loop: the falloff computed from the flipped
      pairs the loop keeps is the falloff of the raw sample pairs. */
  lemma StepFalloff(sqrt: real -> real, leftAmt: real, rightAmt: real, lastLeftAmt: real, lastRightAmt: real,
                    j: nat, count: nat, mixfreq: nat)
    requires IsSquareRoot(sqrt)
    requires 0 < mixfreq
    requires j < count
    ensures var dist := DistFast(sqrt, leftAmt, rightAmt, lastLeftAmt, lastRightAmt);
      var f := BaseFalloff - dist * RayDistanceFadeMultiplier / mixfreq as real;
      (if f > 0.0 then f else 0.0) * (j as real / count as real)
        == Falloff(DistFast(sqrt, leftAmt, -rightAmt, lastLeftAmt, -lastRightAmt), j, count, mixfreq)
  {
    DistFastMirror(sqrt, leftAmt, -rightAmt, lastLeftAmt, -lastRightAmt);
    assert - -rightAmt == rightAmt && - -lastRightAmt == lastRightAmt;
  }

  /** The render-side state of the program between frames. */
  datatype Frame = Frame(
    samples: seq<real>,
    vertices: seq<Vertex>,
    mesh: Graphics.Mesh,
    width: nat,
    height: nat,
    mixfreq: nat)

  /** `OnLoad` after Audio.Init: size the sample array to two channels of
      BufferHistoryLength seconds, make a line mesh of one point per pair
      and upload it once. `genVao` and `genBuffer` are the names GL
      generates. The vertex array the frame loop writes has one entry per
      mesh point. */
  function Load(mixfreq: nat, width: nat, height: nat, genVao: int, genBuffer: int): (f: Frame)
    ensures |f.samples| == 2 * BufferSize(mixfreq)
    ensures |f.vertices| == |f.mesh.points| == BufferSize(mixfreq)
    ensures |f.vertices| == |f.samples| / 2
    ensures forall k :: 0 <= k < |f.samples| ==> f.samples[k] == 0.0
    ensures f.mesh.drawMode == Graphics.LineStrip && f.mesh.vao == genVao
    ensures f.mixfreq == mixfreq && f.width == width && f.height == height
  {
    var n := BufferSize(mixfreq);
    var samples := Audio.SetSampleSize(n * 2).value;
    var mesh := Graphics.NewLineMesh(n).value;
    Frame(samples, seq(n, _ => ZeroVertex), Graphics.UpdateBuffer(mesh, genVao, genBuffer).0, width, height, mixfreq)
  }

  /** A loaded program can always run its frame loop: there is one vertex
      per sample pair, and a non-empty buffer implies a non-zero mix
      frequency. */
  lemma LoadedFrameFitsTrace(mixfreq: nat, width: nat, height: nat, genVao: int, genBuffer: int)
    ensures var f := Load(mixfreq, width, height, genVao, genBuffer);
      |f.samples| / 2 <= |f.vertices| && (4 <= |f.samples| ==> 0 < f.mixfreq)
  {
  }

  /** `OnUpdateFrame`: rebuild every vertex from the current samples and
      re-upload the mesh. A vertex array shorter than the sample pairs makes
      the loop's index throw. */
  method UpdateFrame(f: Frame, sqrt: real -> real, fade: (Color, real) -> Color, genVao: int, genBuffer: int)
    returns (r: Result<Frame>)
    requires IsSquareRoot(sqrt)
    requires 4 <= |f.samples| ==> 0 < f.mixfreq
    ensures r.Failure? <==> |f.vertices| < |f.samples| / 2
    ensures r.Failure? ==> r.error == IndexOutOfRange
    ensures r.Success? ==> r.value == f.(vertices := r.value.vertices, mesh := r.value.mesh)
    ensures r.Success? ==> r.value.mesh.drawMode == f.mesh.drawMode && r.value.mesh.usageHint == f.mesh.usageHint
    ensures r.Success? ==> (4 <= |r.value.samples| ==> 0 < r.value.mixfreq) && |r.value.samples| / 2 <= |r.value.vertices|
    ensures r.Success? ==>
      && r.value.samples == f.samples
      && |r.value.vertices| == |f.vertices|
      && r.value.mesh.points == f.mesh.points
      && (Graphics.Allocated(f.mesh) ==> r.value.mesh.vao == f.mesh.vao)
      && (forall j :: 0 <= j < |f.samples| / 2 ==>
            r.value.vertices[j].position == Position(f.samples[2 * j], f.samples[2 * j + 1], f.width, f.height))
      && (0 < |f.vertices| ==> r.value.vertices[0].color == f.vertices[0].color)
      && (forall j :: 1 <= j < |f.samples| / 2 ==>
            r.value.vertices[j].color == ColorAt(f.samples, j, |f.vertices|, f.mixfreq, sqrt, fade))
      && (forall j :: |f.samples| / 2 <= j < |f.vertices| ==> r.value.vertices[j] == f.vertices[j])
  {
    if |f.vertices| < |f.samples| / 2 {
      return Failure(IndexOutOfRange);
    }
    var vertices, _ := BuildTrace(f.samples, f.vertices, f.width, f.height, f.mixfreq, sqrt, fade);
    var mesh := Graphics.UpdateBuffer(f.mesh, genVao, genBuffer).0;
    r := Success(f.(vertices := vertices, mesh := mesh));
  }
}

=== FILE: shaders.dfy ===
/** The shader program wrapper of Shaders.cs: lazy program creation while
    compiling, the name-to-uniform table and its setters. OpenGL is not
    modelled; the calls the code makes are recorded as `GlCall` values and
    what GL reports (object names, compile status, active uniforms) is
    passed in. */
module Shaders {
  import opened Wrappers

  /** A cached uniform. `dataType` is the GL ActiveUniformType code;
      `value` is the (always null) cached value. */
  datatype Uniform = Uniform(name: string, location: int, dataType: int, value: Option<UniformValue>)

  /** `Uniform.Default`: the record a failed lookup returns. */
  const InvalidUniform: Uniform := Uniform("INVALID UNIFORM", -1, 0, None)

  /** The value each `Set*` member passes on, one variant per setter. */
  datatype UniformValue =
    | Double(d: real)
    | Float(f: real)
    | Integer(n: int)
    | Vector2(x: real, y: real)
    | Float2d(d1: real, d2: real)
    | Float2f(f1: real, f2: real)
    | Vector3(x: real, y: real, z: real)
    | Float3d(d1: real, d2: real, d3: real)
    | Float3f(f1: real, f2: real, f3: real)
    | Matrix4(entries: seq<real>)

  datatype ShaderType = VertexShader | FragmentShader

  /** The OpenGL calls the shader issues, in the order issued. */
  datatype GlCall =
    | CreateProgram(program: int)
    | BindAttribLocation(program: int, index: nat, attribute: string)
    | CreateShader(shader: int, kind: ShaderType)
    | CompileShader(shader: int)
    | AttachShader(program: int, shader: int)
    | LinkProgram(program: int)
    | DetachShader(program: int, shader: int)
    | DeleteShader(shader: int)
    | UseProgram(program: int)
    | SetUniformValue(location: int, value: UniformValue)

  /** What GL reports about one active uniform. */
  datatype ActiveUniform = ActiveUniform(name: string, dataType: int)

  /** What GL reports for one shader compile: the new shader's name and its
      compile status (0 means failure). */
  datatype CompileReport = CompileReport(shader: int, status: int)

  /** A Shader object: no program until the first compile (-1). */
  datatype Shader = Shader(programId: int, name: string, uniforms: map<string, Uniform>)

  /** Every cached uniform is stored under its own name at a real location. */
  ghost predicate WellFormed(s: Shader) {
    forall n :: n in s.uniforms ==> s.uniforms[n].name == n && s.uniforms[n].location >= 0
  }

  /** `CompileShader`: create the program (and bind the three attribute
      slots) only if there is none yet, then create and compile the shader;
      on failure return -1 without attaching, otherwise attach it and return
      its name. `programName` is what glCreateProgram would return. */
  function Compile(s: Shader, kind: ShaderType, programName: int, report: CompileReport)
    : (r: (Shader, int, seq<GlCall>))
    ensures s.programId == -1 ==> r.0.programId == programName && |r.2| > 0 && r.2[0] == CreateProgram(programName)
    ensures s.programId != -1 ==> r.0.programId == s.programId && forall c :: c in r.2 ==> !c.CreateProgram?
    ensures r.0.uniforms == s.uniforms && r.0.name == s.name
    ensures report.status == 0 ==> r.1 == -1 && forall c :: c in r.2 ==> !c.AttachShader?
    ensures report.status != 0 ==> r.1 == report.shader && |r.2| > 0 && r.2[|r.2| - 1] == AttachShader(r.0.programId, report.shader)
  {
    var (program, setup) :=
      if s.programId == -1 then
        (programName, [
          CreateProgram(programName),
          BindAttribLocation(programName, 0, "_Position"),
          BindAttribLocation(programName, 1, "_Color"),
          BindAttribLocation(programName, 2, "_UV")])
      else (s.programId, []);
    var build := setup + [CreateShader(report.shader, kind), CompileShader(report.shader)];
    if report.status == 0 then (s.(programId := program), -1, build)
    else (s.(programId := program), report.shader, build + [AttachShader(program, report.shader)])
  }

  /** Compiling the two stages creates one program, in the first compile,
      provided GL's program name is not -1. */
  lemma OneProgramPerShader(s: Shader, p1: int, r1: CompileReport, p2: int, r2: CompileReport)
    requires s.programId == -1
    requires p1 != -1
    ensures var c1 := Compile(s, VertexShader, p1, r1);
      var c2 := Compile(c1.0, FragmentShader, p2, r2);
      && c1.2[0] == CreateProgram(p1)
      && (forall k :: 1 <= k < |c1.2| ==> !c1.2[k].CreateProgram?)
      && (forall c :: c in c2.2 ==> !c.CreateProgram?)
      && c2.0.programId == p1
  {
  }

  /** The names of the active uniforms. */
  function Names(active: seq<ActiveUniform>): set<string> {
    NamesBefore(active, |active|)
  }

  /** The names of the first `i` active uniforms. */
  function NamesBefore(active: seq<ActiveUniform>, i: nat): set<string>
    requires i <= |active|
  {
    if i == 0 then {} else NamesBefore(active, i - 1) + {active[i - 1].name}
  }

  /** A name is among the first `i` exactly when one of them carries it. */
  lemma {:induction false} NamesBeforeMembers(active: seq<ActiveUniform>, i: nat, n: string)
    requires i <= |active|
    ensures n in NamesBefore(active, i) <==> exists k :: 0 <= k < i && active[k].name == n
  {
    if i > 0 {
      NamesBeforeMembers(active, i - 1, n);
      if active[i - 1].name == n {
        assert exists k :: 0 <= k < i && active[k].name == n;
      }
    }
  }

  /** No duplicate among the names, and none already cached. */
  predicate Fresh(active: seq<ActiveUniform>, cached: set<string>) {
    && (forall k :: 0 <= k < |active| ==> active[k].name !in cached)
    && (forall j, k :: 0 <= j < k < |active| ==> active[j].name != active[k].name)
  }

  /** A name already cached, or seen earlier in the list, breaks freshness. */
  lemma RepeatedNameNotFresh(active: seq<ActiveUniform>, cached: set<string>, i: nat)
    requires i < |active|
    requires active[i].name in cached + NamesBefore(active, i)
    ensures !Fresh(active, cached)
  {
    if active[i].name !in cached {
      NamesBeforeMembers(active, i, active[i].name);
      var j :| 0 <= j < i && active[j].name == active[i].name;
    }
  }

  /** The uniform `CacheUniformLocations` stores for the k-th active one:
      its name, location k, its type and no value. */
  function CachedUniform(active: seq<ActiveUniform>, k: nat): Uniform
    requires k < |active|
  {
    Uniform(active[k].name, k, active[k].dataType, None)
  }

  /** The loop of `CacheUniformLocations`: the entries it adds, or the
      first name that Dictionary.Add rejects because it is already cached
      or was added earlier in the loop. */
  method CollectUniforms(active: seq<ActiveUniform>, cached: set<string>) returns (r: Result<map<string, Uniform>>)
    ensures r.Success? <==> Fresh(active, cached)
    ensures r.Failure? ==> r.error.DuplicateKey? && r.error.key in Names(active)
    ensures r.Success? ==> r.value.Keys == Names(active)
    ensures r.Success? ==> forall k :: 0 <= k < |active| ==>
      active[k].name in r.value && r.value[active[k].name] == CachedUniform(active, k)
  {
    var added: map<string, Uniform> := map[];
    var i := 0;
    while i < |active|
      invariant 0 <= i <= |active|
      invariant forall k :: 0 <= k < i ==> active[k].name !in cached
      invariant forall j, k :: 0 <= j < k < i ==> active[j].name != active[k].name
      invariant added.Keys == NamesBefore(active, i)
      invariant forall k :: 0 <= k < i ==>
        active[k].name in added && added[active[k].name] == CachedUniform(active, k)
    {
      var name := active[i].name;
      if name in cached || name in added {
        RepeatedNameNotFresh(active, cached, i);
        NamesBeforeMembers(active, |active|, name);
        return Failure(DuplicateKey(name));
      }
      added := added[name := Uniform(name, i, active[i].dataType, None)];
      i := i + 1;
    }
    r := Success(added);
  }

  /** `CacheUniformLocations`: store the i-th active uniform under its name
      with location i and no value. Dictionary.Add throws on the first name
      already present. */
  method CacheUniformLocations(s: Shader, active: seq<ActiveUniform>) returns (r: Result<Shader>)
    ensures r.Success? <==> Fresh(active, s.uniforms.Keys)
    ensures r.Failure? ==> r.error.DuplicateKey? && r.error.key in Names(active)
    ensures r.Success? ==>
      && r.value.programId == s.programId && r.value.name == s.name
      && r.value.uniforms.Keys == s.uniforms.Keys + Names(active)
      && (forall n :: n in s.uniforms ==> r.value.uniforms[n] == s.uniforms[n])
      && (forall k :: 0 <= k < |active| ==>
            active[k].name in r.value.uniforms && r.value.uniforms[active[k].name] == CachedUniform(active, k))
  {
    var added := CollectUniforms(active, s.uniforms.Keys);
    if added.Failure? {
      return Failure(added.error);
    }
    forall n | n in s.uniforms
      ensures n !in added.value
    {
      NamesBeforeMembers(active, |active|, n);
    }
    r := Success(s.(uniforms := s.uniforms + added.value));
  }

  /** `GetUniform`: a missing name yields the invalid record and binds
      nothing; a present name yields its record and binds the program only
      when `autoBind` is set. */
  function GetUniform(s: Shader, name: string, autoBind: bool): (r: (Uniform, seq<GlCall>))
    ensures name !in s.uniforms ==> r.0 == InvalidUniform && r.1 == []
    ensures name in s.uniforms ==> r.0 == s.uniforms[name]
    ensures name in s.uniforms ==> r.1 == if autoBind then [UseProgram(s.programId)] else []
  {
    if name !in s.uniforms then (InvalidUniform, [])
    else (s.uniforms[name], if autoBind then [UseProgram(s.programId)] else [])
  }

  /** The `Set*` family: look the uniform up (binding the program if asked
      and the name is known), give up with false at location -1, otherwise
      pass the value to the uniform's location and return true. */
  function SetUniform(s: Shader, name: string, value: UniformValue, bindProgram: bool)
    : (r: (bool, seq<GlCall>))
    ensures !r.0 <==> name !in s.uniforms || s.uniforms[name].location == -1
    ensures !r.0 ==> forall c :: c in r.1 ==> !c.SetUniformValue?
    ensures r.0 ==> |r.1| > 0 && r.1[|r.1| - 1] == SetUniformValue(s.uniforms[name].location, value)
    ensures name !in s.uniforms ==> r.1 == []
  {
    var (uniform, binding) := GetUniform(s, name, bindProgram);
    if uniform.location == -1 then (false, binding)
    else (true, binding + [SetUniformValue(uniform.location, value)])
  }

  /** On a well-formed shader every setter fails exactly for unknown names. */
  lemma SetFailsExactlyWhenMissing(s: Shader, name: string, value: UniformValue, bindProgram: bool)
    requires WellFormed(s)
    ensures SetUniform(s, name, value, bindProgram).0 <==> name in s.uniforms
  {
  }

  /** Caching keeps a shader well formed, and afterwards every setter on a
      cached name succeeds. */
  lemma CachePreservesWellFormed(s: Shader, active: seq<ActiveUniform>, r: Result<Shader>)
    requires WellFormed(s)
    requires r.Success?
    requires r.value.uniforms.Keys == s.uniforms.Keys + Names(active)
    requires forall n :: n in s.uniforms ==> r.value.uniforms[n] == s.uniforms[n]
    requires forall k :: 0 <= k < |active| ==>
      active[k].name in r.value.uniforms && r.value.uniforms[active[k].name] == CachedUniform(active, k)
    ensures WellFormed(r.value)
    ensures forall k, v: UniformValue, b: bool :: 0 <= k < |active| ==> SetUniform(r.value, active[k].name, v, b).0
  {
    forall n | n in r.value.uniforms
      ensures r.value.uniforms[n].name == n && r.value.uniforms[n].location >= 0
    {
      if n !in s.uniforms {
        NamesBeforeMembers(active, |active|, n);
        var k :| 0 <= k < |active| && active[k].name == n;
      }
    }
  }

  /** `new Shader(name, …)`: compile both stages, link, detach and delete
      the stage objects, then cache the active uniforms of the fresh
      program. A duplicate uniform name makes the constructor throw. */
  method NewShader(name: string, programName: int, vertex: CompileReport, fragment: CompileReport,
                   active: seq<ActiveUniform>)
    returns (r: Result<Shader>, calls: seq<GlCall>)
    requires programName != -1
    ensures r.Success? <==> Fresh(active, {})
    ensures r.Success? ==> r.value.programId == programName && r.value.name == name && WellFormed(r.value)
    ensures r.Success? ==> forall k :: 0 <= k < |active| ==> active[k].name in r.value.uniforms
    ensures |calls| > 0 && calls[0] == CreateProgram(programName)
    ensures forall k :: 1 <= k < |calls| ==> !calls[k].CreateProgram?
    ensures LinkProgram(programName) in calls
  {
    var s := Shader(-1, name, map[]);
    var v := Compile(s, VertexShader, programName, vertex);
    var f := Compile(v.0, FragmentShader, programName, fragment);
    OneProgramPerShader(s, programName, vertex, programName, fragment);
    s := f.0;
    var finish := [
      LinkProgram(s.programId),
      DetachShader(s.programId, v.1),
      DetachShader(s.programId, f.1),
      DeleteShader(v.1),
      DeleteShader(f.1)];
    calls := v.2 + f.2 + finish;
    r := CacheUniformLocations(s, active);
    if r.Success? {
      CachePreservesWellFormed(s, active, r);
    }
  }
}

=== FILE: utilities.dfy ===
/** The two interpolation helpers of Utilities.cs, over the reals. */
module Utilities {

  /** Linear interpolation: `percent` 0 gives `start`, 1 gives `end`. */
  function Lerp(start: real, end: real, percent: real): (r: real)
    ensures percent == 0.0 ==> r == start
    ensures percent == 1.0 ==> r == end
    ensures start == end ==> r == start
    ensures start <= end && 0.0 <= percent <= 1.0 ==> start <= r <= end
  {
    ProductBounds(percent, end - start);
    start + percent * (end - start)
  }

  /** Re-maps `x` from the range [inMin, inMax] onto [outMin, outMax]. The
      ranges need not be ordered, but the input range must not be empty,
      because the source divides by its width. */
  function Map(x: real, inMin: real, inMax: real, outMin: real, outMax: real): (r: real)
    requires inMin != inMax
    ensures x == inMin ==> r == outMin
    ensures x == inMax ==> r == outMax
  {
    ScaleByRatio(x - inMin, outMax - outMin, inMax - inMin);
    (x - inMin) * (outMax - outMin) / (inMax - inMin) + outMin
  }

  /** For a percentage in [0, 1] the interpolation lies between the two
      ends, whichever of them is larger. */
  lemma LerpBetween(start: real, end: real, percent: real)
    requires 0.0 <= percent <= 1.0
    ensures start <= end ==> start <= Lerp(start, end, percent) <= end
    ensures end <= start ==> end <= Lerp(start, end, percent) <= start
  {
    ProductBounds(percent, start - end);
  }

  /** A fraction p of a non-negative width w lies between 0 and w. */
  lemma ProductBounds(p: real, w: real)
    ensures 0.0 <= p <= 1.0 && 0.0 <= w ==> 0.0 <= p * w <= w
  {
    if 0.0 <= p <= 1.0 && 0.0 <= w {
      assert 0.0 <= (1.0 - p) * w;
    }
  }

  /** Multiplying before or after dividing gives the same value. */
  lemma ScaleByRatio(a: real, b: real, d: real)
    requires d != 0.0
    ensures a * b / d == (a / d) * b
    ensures a == 0.0 ==> a * b / d == 0.0
    ensures a == d ==> a * b / d == b
  {
    var q := a / d;
    assert q * d == a;
    assert (q * b) * d == a * b;
  }

  /** Mapping from the unit interval is linear interpolation. */
  lemma MapUnitIsLerp(percent: real, start: real, end: real)
    ensures Map(percent, 0.0, 1.0, start, end) == Lerp(start, end, percent)
  {
  }

  /** Scaling by e/d, shifting by c and back, then scaling by d/e gives
      back what was scaled. */
  lemma RatioCancel(a: real, d: real, e: real, c: real)
    requires d != 0.0 && e != 0.0
    ensures (a * e / d + c - c) * d / e == a
  {
    var q := a * e / d;
    assert q + c - c == q;
    assert q * d == a * e;
    assert (a * e) / e == a;
  }

  /** Mapping back with the ranges swapped returns the original value. */
  lemma MapRoundTrip(x: real, inMin: real, inMax: real, outMin: real, outMax: real)
    requires inMin != inMax
    requires outMin != outMax
    ensures Map(Map(x, inMin, inMax, outMin, outMax), outMin, outMax, inMin, inMax) == x
  {
    RatioCancel(x - inMin, inMax - inMin, outMax - outMin, outMin);
  }
}

=== FILE: wrappers.dfy ===
/** Option and Result types shared by the model, and the .NET exceptions the
    modelled code can raise, as values. */
module Wrappers {

  /** A value that may be missing (a C# null reference). */
  datatype Option<+T> = None | Some(value: T)

  /** The runtime exceptions the modelled code can raise. */
  datatype Error =
    | IndexOutOfRange        // System.IndexOutOfRangeException
    | NegativeArraySize      // System.OverflowException from `new T[n]` with n < 0
    | DuplicateKey(key: string)  // System.ArgumentException from Dictionary.Add
    | NullReference          // System.NullReferenceException

  /** The outcome of an operation that either returns a value or throws. */
  datatype Result<+T> = Success(value: T) | Failure(error: Error)
}
